=== FILE: README.md ===
# hwinfo `LogSensors` in Dafny

This project models the pure core of the `LogSensors` daemon in `syslog.py`.
Each cycle the daemon does three things:

- It reads hardware temperatures: `sensors -j` for the board sensors and
  `smartctl -Ai` for every configured disk.
- It turns each reading into one BSD-style syslog line, close to the header layout of RFC 3164. The day of the month is zero-padded rather than space-padded, and the time of day follows the locale's `%X`. The line is
  `<PRI>stamp hostname tag @cee: {json}`. The JSON payload replaces the raw
  readings with their mean and adds the host name and the report time.
- It drains the batch of lines to a TCP collector, or prints the batch in
  dry-run mode. It then sleeps until the next multiple of the interval.

The modules follow the program's structure:

| module | file | models |
|---|---|---|
| `Results` | results.dfy | `Option`, `Result`, the `Fault` cases a Python exception collapses to, and `Run`: a loop that appends one result per iteration and stops at the first raising iteration |
| `PyInt` | pyint.dfy | Python's `\|` on unbounded integers, written out through two's complement |
| `Text` | text.dfy | decimal rendering of `f'{n}'`, `int()` of a token, and `' '.join` |
| `Record` | record.dfy | a JSON object as an insertion-ordered list of fields, with `dict` lookup, assignment and `del` |
| `SensorTree` | sensor_tree.dfy | `select_readings` |
| `SyslogFormat` | syslog_format.dfy | `format_message` |
| `Disk` | disk.dfy | `load_disk`: device and `-d` resolution, the command line, and the scan of the tool's output |
| `Sensors` | sensors.dfy | the per-sensor loop of `load_sensors` |
| `Sink` | sink.dfy | `send_data` |
| `Schedule` | schedule.dfy | the sleep computation at the end of `main` |

The model takes the program's environment as parameters:

- The key pattern test (`re.match`) is a `Matcher`.
- `json.dumps` is a `Serializer`.
- The clock, `os.uname().nodename`, the script name and the process id form a `Host` record.
- The `smartctl` run is a function from the command line to the tool's whitespace-split output lines.
- The parsed `sensors -j` output is a `Tree`.

Behaviour of the code a reader might not expect, which the model follows:

- Keys are tested with `re.match`, which anchors at the start of the key only. A pattern therefore matches every key that begins with a match of the pattern.
- In `select_readings`, a non-final depth at which no key matches raises, because `reduce` of an empty list raises.
- PRI is `(Facility << 3) | Priority`, a bitwise or. This equals `8 * Facility + Priority` when `0 <= Priority < 8`. Outside that range the bits can collide: `(3 << 3) | 8` is 24, not 32, as `PyInt.OrCollides` shows.
- A sensor whose selection is empty raises in `format_message`, including when a single pattern matches no key. Nothing catches it: the exception passes out of `gather` and `main` and ends the process.
- The disk attributes read are 190 and 194, and only their tenth token (the raw value) is used.
- The tokens of a line are joined by single spaces, so `@cee:` and the JSON payload are separated by a space.
- `send_data` runs in the same `asyncio.gather` as the collectors. A cycle's lines are usually sent by the next cycle's `send_data`.
- `send_data` pops each line from the queue and then writes it.

## Model

| member | source | states |
|---|---|---|
| Results.Run | syslog.py:113-122 | the appended results are, pointwise and in order, the results of a prefix of the iterations. The loop finishes without a fault iff that prefix is the whole input. Otherwise the fault is the one raised by the iteration right after the prefix |
| PyInt.OrShiftedLowBits | syslog.py:36-43 | for `0 <= p < 8`, `(f << 3) \| p` equals `8f + p` for every integer f, negative ones included |
| PyInt.OrCollides | syslog.py:36-43 | outside `0 <= Priority < 8` the bits can collide: `(3 << 3) \| 8` is 24, not 32 |
| Text.DecimalRoundTrip | syslog.py:48-50 | `int()` reads back the decimal text of every integer that a PRI or pid is rendered as |
| Text.ParseInt | syslog.py:94 | `int()` of a token succeeds iff the token is an optional sign followed by at least one ASCII digit. A `-` sign gives a value of at most zero, and any other token a value of at least zero. The value itself is fixed by `DecimalRoundTrip`, `LeadingZero`, `PlusSign` and `MinusSign` |
| Text.LeadingZero | syslog.py:94 | a leading zero does not change the value of a digit run, so `int("035") == int("35")` |
| Text.PlusSign | syslog.py:94 | a `+` in front of a digit run does not change its value, and a lone `+` is rejected like the empty token |
| Text.MinusSign | syslog.py:94 | a `-` in front of a digit run is accepted iff the run is, and negates its value, so `int("-0") == 0` |
| Text.DecimalExamples | syslog.py:48 | the PRI values 30 and 13 render as `<30>` and `<13>` |
| Text.Join | syslog.py:66 | joining no parts gives the empty string. Otherwise the length is the sum of the parts plus one separator between each pair |
| Text.JoinSnoc | syslog.py:66 | joining with one more part appends the separator and that part |
| Record.Find | syslog.py:54-62 | the position of the first field with the key, or the length when no field has it |
| Record.Get | syslog.py:54-62 | a lookup finds a value iff some field has the key, and the field found is in the message |
| Record.Set | syslog.py:54-60 | assignment stores the value under the key. Every other key is unchanged. The key order is kept, or the new key is appended. Distinct keys stay distinct |
| Record.SetNew | syslog.py:54-60 | assigning a new key appends it at the end |
| Record.Delete | syslog.py:62 | `del` removes exactly the field with the key, keeping the others in order. Other keys are unchanged, and afterwards the key is absent |
| SensorTree.Select | syslog.py:21-32 | a number cannot be indexed. With one selector and no matching key the result is empty. With more selectors and no matching key the call raises. A base-case result has at most one value per child |
| SensorTree.Matching | syslog.py:25-26 | a child is listed iff it is a child whose key matches, and there are no more of them than children. The list is empty iff no key matches. That the order is key order rests on the definition and on `MatchingAppend` |
| SensorTree.MatchingAppend | syslog.py:25-26 | filtering distributes over concatenation |
| SensorTree.SelectSingle | syslog.py:22-27 | the base case succeeds iff every matching child is a number. Its result lists those numbers in key order |
| SensorTree.SelectRecursive | syslog.py:28-32 | the recursive case raises when no key matches. It succeeds iff every matching child's selection with the remaining selectors succeeds, and then it concatenates them in key order. A failure is the first failing child's |
| SensorTree.MatchedLeavesIsMatching | syslog.py:23-27 | the base-case comprehension agrees with filtering the children by key and then reading each one as a number |
| SensorTree.DescendIsCollect | syslog.py:28-32 | the recursive-case comprehension agrees with filtering the children and then selecting in each |
| SensorTree.CollectOk | syslog.py:28-32 | selecting in a list of children succeeds iff each selection does. The results come pointwise, and a failure is the first one |
| SyslogFormat.IntField | syslog.py:35-43 | an absent field takes its default. A present field must be an integer |
| SyslogFormat.Pri | syslog.py:35-43 | PRI is defined iff both fields are integers or absent. With neither field it is 30 (daemon 3, info 6). For `0 <= Priority < 8` it is `8 * Facility + Priority` |
| SyslogFormat.NameOf | syslog.py:57 | the mean is stored under the string in the `name` field. The call fails when that field is absent or not a string |
| SyslogFormat.MeanOf | syslog.py:58-59 | the mean is defined iff `readings` is a non-empty list of numbers. An empty list raises |
| SyslogFormat.Reshape | syslog.py:54-62 | after the update and `del`: `readings` is gone; the mean is under the name; the host name and the report time are present; every other field is unchanged; keys stay distinct |
| SyslogFormat.FormatMessage | syslog.py:34-66 | formatting succeeds iff PRI, the name and the mean are all defined, and empty readings raise. The record is the reshaped message. The line is the five space-separated tokens `<PRI>stamp`, hostname, `prog[pid]:`, `@cee:` and the serialised record |
| SyslogFormat.FormatRecord | syslog.py:54-64 | the serialised record has no `readings` field. It holds the mean under the name, the hostname and the report time, and keeps every other field of the input |
| SyslogFormat.DefaultHeader | syslog.py:35-48 | a message without Facility and Priority produces a line that opens with `<30>` |
| SyslogFormat.UserNoticeHeader | syslog.py:35-48 | Facility 1 and Priority 5 produce a line that opens with `<13>` |
| SyslogFormat.MeanBounds | syslog.py:58-59 | the mean lies between any lower and upper bound of the readings |
| SyslogFormat.SumBounds | syslog.py:58 | the sum of n readings lies between n times their lower and n times their upper bound |
| SyslogFormat.MeanExamples | syslog.py:58-59 | one reading is its own mean, and 10, 20, 30 average to 20 |
| SyslogFormat.ReshapeAppends | syslog.py:54-62 | when hostname, timereported and the name are new keys, they are appended in that order after the surviving fields |
| SyslogFormat.ReshapeSensor | syslog.py:54-62 | a sensor message `{name, readings}` becomes `{name, hostname, timereported, <name>: mean}`, for every sensor name other than `name`, `hostname`, `timereported` and `readings` (the empty name included) |
| SyslogFormat.SensorRecord | syslog.py:113-122 | a sensor with at least one reading formats successfully, and its record is exactly those four fields in that order. This holds for every sensor name other than `name`, `hostname`, `timereported` and `readings` |
| Disk.Device | syslog.py:69-72 | the disk's own device is used when configured. Otherwise the `__default__` device is used, and its absence raises |
| Disk.KindFlag | syslog.py:74-78 | the flag is non-empty iff `disk_kinds` exists and names the disk, and then it is `-d <kind>` |
| Disk.AttributeStep | syslog.py:93-94 | a line starting with 190 or 194 stores its tenth token as a one-sample `readings` list. It raises when that token is missing or is not an integer. Every other field is kept |
| Disk.LabelStep | syslog.py:95-98 | a `Device Model:` or `Serial Number:` line stores the rest of the line under its key. A lone `Device` or `Serial` token raises. Every other field is kept |
| Disk.Step | syslog.py:91-98 | one line raises exactly on the cases `LineFault` names: a short or non-integer attribute line, or a lone `Device` or `Serial` token |
| Disk.StepFields | syslog.py:93-98 | one line writes readings, model or serial only when it is of that kind, and leaves the other two alone |
| Disk.Last | syslog.py:91-98 | the index of the last line of a kind, or none when no line is of that kind |
| Disk.Scan | syslog.py:87-98 | the scanned message has distinct keys, keeps the disk's name, and holds only name, readings, model and serial |
| Disk.ScanFaults | syslog.py:91-98 | the scan fails iff some line faults, and then with the first faulting line's fault |
| Disk.ScanFirstFault | syslog.py:91-98 | the scan fails iff the reference first-fault search finds a fault, and then with that fault |
| Disk.FirstFaultIsFirst | syslog.py:91-98 | the first-fault search finds nothing iff no line faults. Otherwise it returns the fault of some line, and every earlier line is fault-free |
| Disk.ScanSnoc | syslog.py:91-98 | one more line leaves a failed scan failed. Otherwise the scan fails on that line exactly when the line faults |
| Disk.ScanLacks | syslog.py:87-98 | the scanned message has no Facility or Priority field, nor any key other than name, readings, model and serial |
| Disk.ScanFields | syslog.py:91-98 | readings, model and serial each hold what the last line of their kind wrote: the tenth token as a one-sample list, or the text after the label |
| Disk.LastStep | syslog.py:91-98 | a line of a kind replaces that kind's field, and any other line leaves the field as it was |
| Disk.ParseSmart | syslog.py:87-101 | parsing succeeds iff the scan does. A message is produced only if it has readings |
| Disk.ParseSmartSkips | syslog.py:100-101 | a disk yields no message exactly when no line starts with 190 or 194 |
| Disk.DiskMessage | syslog.py:87-101 | a scanned disk message with an attribute line has PRI 30, the disk's name, and the last attribute's raw value as its mean. It also has the model and serial of the last label lines |
| Disk.FormatKeeps | syslog.py:54-62 | formatting keeps the model and serial fields and stores the mean under the name |
| Disk.ReshapeKeepsKey | syslog.py:54-62 | model and serial survive the update unless the name collides with them |
| Disk.DiskRecord | syslog.py:87-101 | formatting never fails for a scanned disk with an attribute line. The name then carries that line's raw value, and model and serial come from the last label lines |
| Disk.LoadDisk | syslog.py:68-101 | `load_disk` fails iff the device lookup or the scan fails. A missing device fails with the device lookup's fault. It emits nothing iff no attribute line was seen, and otherwise emits the formatted scan, whose formatting cannot fail |
| Sensors.SensorLine | syslog.py:114-122 | an unconfigured sensor raises a missing key. A selection failure propagates. An empty selection raises. Otherwise the sensor succeeds, and its line is `format_message` of `{'name': name, 'readings': selection}`. For a name other than `name`, `hostname`, `timereported` and `readings`, its record is exactly name, hostname, report time and the selection's mean under the name, in that order |
| Sensors.SensorMessage | syslog.py:114-120 | a sensor message has distinct keys, PRI 30 and the sensor's name. Its mean is defined iff it has readings |
| Sensors.LoadSensors | syslog.py:113-122 | the batch gains one line per sensor, in configured order, up to the first failing sensor. The lines of the sensors before it stay in the batch. There is no fault iff every sensor's line succeeds. Otherwise the fault is the first failing sensor's |
| Sink.SendData | syslog.py:124-141 | an empty batch does nothing and opens no connection. A dry run prints the batch and writes nothing. Otherwise the writes on the one connection are exactly `Framed(batch)`: each line in order, followed by a newline. The batch always ends empty |
| Sink.NewlineAt | syslog.py:137 | the position of the first newline, or the length when there is none |
| Sink.StreamRoundTrip | syslog.py:136-138 | when no line contains a newline, a collector that splits the concatenated writes `Framed(batch)` at newlines reads back exactly the batch, in order |
| Schedule.SleepSeconds | syslog.py:159-160 | the sleep is positive and at most one interval. It ends on a multiple of the interval, and no multiple lies strictly between now and then |
| Schedule.BoundaryAt | syslog.py:159-160 | every multiple of the interval is a cycle boundary |
| Schedule.Between | syslog.py:159-160 | no cycle boundary lies strictly between two consecutive multiples of the interval |
| Schedule.SleepExample | syslog.py:159-160 | with a 60-second interval, second 23 sleeps 37 seconds |

## Left out

- Running `sensors -j` and `smartctl`, and decoding their bytes, is not modelled. Subprocesses are I/O: the tool's split output lines and the parsed JSON tree are parameters.
- Opening, draining and closing the TCP connection is not modelled. These are I/O: `Sink.SendData` records the connection and the writes it would make as strings. The UTF-8 `.encode()` of each write is not modelled.
- `asyncio.gather` is not modelled. The disk loads, the sensor load and the send run concurrently and share `self.data`, so which cycle a line is sent in depends on scheduling. The model treats each operation on its own, and `Sink.SendData` takes the batch as a parameter.
- `datetime.now`, `strftime`, `astimezone().isoformat()`, `os.uname`, `os.path.basename(__file__)` and `os.getpid` are not modelled. They are environment reads and form the `Host` parameter.
- Sensors.LoadSensors: uses one `Host` for every sensor in a cycle. The source reads the clock once per message, so the time can differ between sensors.
- `json.dumps` (with or without `indent`) is left abstract as a `Serializer`. The dry-run print is recorded as the list of lines it prints.
- Regular expressions are left abstract as a `Matcher`. `re.match` anchors at the start of the key.
- Configuration loading, the command line and the `main` loop itself are left out; only the sleep computation is modelled.
- Python's exception classes are collapsed into one `Fault` per cause.
- SensorTree.Select: a matched child that is an object, not a number, raises `NotNumeric` during selection. In the source it is returned, and `format_message` raises later: adding two objects fails, and for a single object `reduce` returns it unchanged and the division by `len(...)` fails.
- SensorTree.Tree: holds only numbers and objects. The JSON of `sensors -j` also holds strings (every chip's `"Adapter"` entry), and JSON in general holds arrays, booleans and null. A selector that matches such a key above the last depth makes the source raise at `.keys()`. At the last depth, strings, arrays and null make the mean raise, while booleans are averaged as 0 and 1, because `bool` is an `int` subclass in Python. The model cannot express any of these inputs.
- SyslogFormat.NameOf: a `name` that is not a string raises `BadField`. Python accepts any hashable JSON value as a key, but every name the program builds is a string.
- Text.ParseInt: accepts an optional sign followed by ASCII digits. It does not accept the surrounding whitespace, underscores or non-ASCII digits that Python's `int()` also accepts.
- SyslogFormat.Mean: uses exact real arithmetic, not floating point, so rounding in the sum and the division is not modelled.
- Schedule.SleepSeconds: takes whole seconds, requires a positive interval, and does not model the fractional part of `time.time()`. The source divides by zero, or sleeps a negative time, for a non-positive interval.

=== FILE: disk.dfy ===
/** `load_disk`: resolve the device and the `-d` flag for a configured disk,
    run `smartctl -Ai`, and scan its whitespace-split output for the
    temperature attribute (190 or 194), the model and the serial number. */
module Disk {
  import opened Results
  import opened Record
  import opened Text
  import opened SyslogFormat

  /** The disk part of the configuration: `disk_devices` and the optional `disk_kinds`. */
  datatype DiskConfig = DiskConfig(devices: map<string, string>, kinds: Option<map<string, string>>)

  const DefaultDevice := "__default__"

  /** One output line of the tool, already split on whitespace. */
  type Line = seq<string>

  /** The device path: the disk's own entry, else the `__default__` entry. */
  function Device(cfg: DiskConfig, name: string): (r: Result<string, Fault>)
    ensures name in cfg.devices ==> r == Ok(cfg.devices[name])
    ensures name !in cfg.devices ==> (r.Ok? <==> DefaultDevice in cfg.devices)
    ensures name !in cfg.devices && r.Ok? ==> r.value == cfg.devices[DefaultDevice]
    ensures r.Err? ==> r.error == MissingKey(DefaultDevice)
  {
    if name in cfg.devices then Ok(cfg.devices[name])
    else if DefaultDevice in cfg.devices then Ok(cfg.devices[DefaultDevice])
    else Err(MissingKey(DefaultDevice))
  }

  /** `-d <kind>` when `disk_kinds` exists and names the disk, otherwise empty. */
  function KindFlag(cfg: DiskConfig, name: string): (flag: string)
    ensures flag != "" <==> cfg.kinds.Some? && name in cfg.kinds.value
    ensures flag != "" ==> flag == "-d " + cfg.kinds.value[name]
  {
    match cfg.kinds
    case Some(kinds) => if name in kinds then "-d " + kinds[name] else ""
    case None => ""
  }

  /** The shell command the source runs for the disk. */
  function Command(cfg: DiskConfig, name: string): (r: Result<string, Fault>)
    ensures r.Ok? <==> Device(cfg, name).Ok?
    ensures r.Ok? ==> r.value == "sudo smartctl -Ai " + KindFlag(cfg, name) + " " + Device(cfg, name).value
  {
    var device :- Device(cfg, name);
    Ok("sudo smartctl -Ai " + KindFlag(cfg, name) + " " + device)
  }

  /** The three kinds of line the scan reacts to. */
  datatype LineKind = Attribute | ModelLabel | SerialLabel

  predicate Is(kind: LineKind, line: Line) {
    match kind
    case Attribute => |line| > 0 && (line[0] == "190" || line[0] == "194")
    case ModelLabel => |line| > 1 && line[0] == "Device" && line[1] == "Model:"
    case SerialLabel => |line| > 1 && line[0] == "Serial" && line[1] == "Number:"
  }

  /** What scanning one line raises: an attribute line without a tenth token or
      whose tenth token is not an integer, or a lone `Device` or `Serial` token. */
  function LineFault(line: Line): Option<Fault> {
    if Is(Attribute, line) && |line| < 10 then Some(IndexOutOfRange)
    else if Is(Attribute, line) && ParseInt(line[9]).None? then Some(NotAnInteger(line[9]))
    else if |line| == 1 && (line[0] == "Device" || line[0] == "Serial") then Some(IndexOutOfRange)
    else None
  }

  /** The integer in an attribute line's raw value column (the tenth token), when it has one. */
  function RawNumber(line: Line): Option<real> {
    if |line| >= 10 && ParseInt(line[9]).Some? then Some(ParseInt(line[9]).value as real) else None
  }

  /** The `readings` value an attribute line yields: its raw value as a one-sample list. */
  function RawValue(line: Line): Option<Value> {
    match RawNumber(line)
    case Some(v) => Some(Nums([v]))
    case None => None
  }

  /** The text after the two label tokens, single-space joined. */
  function LabelText(line: Line): Value {
    if |line| >= 2 then Str(Join(line[2..], " ")) else Str("")
  }

  /** The first `if`: an attribute line stores its raw value, as a one-sample
      list, under `readings`. */
  function AttributeStep(m: Message, line: Line): (r: Result<Message, Fault>)
    ensures r.Ok? <==> !(Is(Attribute, line) && (|line| < 10 || ParseInt(line[9]).None?))
    ensures r.Err? ==> r.error == (if |line| < 10 then IndexOutOfRange else NotAnInteger(line[9]))
    ensures r.Ok? ==> Get(r.value, "readings") == if Is(Attribute, line) then RawValue(line) else Get(m, "readings")
    ensures r.Ok? ==> forall k :: k != "readings" ==> Get(r.value, k) == Get(m, k)
    ensures r.Ok? && WellFormed(m) ==> WellFormed(r.value)
  {
    if !Is(Attribute, line) then Ok(m)
    else if |line| < 10 then Err(IndexOutOfRange)
    else match ParseInt(line[9])
      case None => Err(NotAnInteger(line[9]))
      case Some(v) => Ok(Set(m, "readings", Nums([v as real])))
  }

  /** The second and third `if`s: a line opening with `lead suffix` stores the
      rest of the line under `key`; a line that is only `lead` raises. */
  function LabelStep(m: Message, line: Line, lead: string, suffix: string, key: string): (r: Result<Message, Fault>)
    ensures r.Ok? <==> !(|line| == 1 && line[0] == lead)
    ensures r.Err? ==> r.error == IndexOutOfRange
    ensures r.Ok? && |line| > 1 && line[0] == lead && line[1] == suffix ==> Get(r.value, key) == Some(LabelText(line))
    ensures r.Ok? && !(|line| > 1 && line[0] == lead && line[1] == suffix) ==> Get(r.value, key) == Get(m, key)
    ensures r.Ok? ==> forall k :: k != key ==> Get(r.value, k) == Get(m, k)
    ensures r.Ok? && WellFormed(m) ==> WellFormed(r.value)
  {
    if |line| == 0 || line[0] != lead then Ok(m)
    else if |line| < 2 then Err(IndexOutOfRange)
    else if line[1] == suffix then Ok(Set(m, key, LabelText(line)))
    else Ok(m)
  }

  /** The three `if`s applied to one line, in the source's order. */
  function Step(m: Message, line: Line): (r: Result<Message, Fault>)
    ensures r.Ok? <==> LineFault(line) == None
    ensures r.Err? ==> LineFault(line) == Some(r.error)
  {
    var m1 :- AttributeStep(m, line);
    var m2 :- LabelStep(m1, line, "Device", "Model:", "model");
    LabelStep(m2, line, "Serial", "Number:", "serial")
  }

  /** The message after the loop over all lines, starting from `{'name': name}`. */
  function Scan(name: string, lines: seq<Line>): (r: Result<Message, Fault>)
    ensures r.Ok? ==> WellFormed(r.value) && Get(r.value, "name") == Some(Str(name))
    ensures r.Ok? ==> forall k :: Get(r.value, k).Some? ==> ScanKey(k)
  {
    if |lines| == 0 then Ok([("name", Str(name))])
    else
      var m :- Scan(name, lines[..|lines| - 1]);
      Step(m, lines[|lines| - 1])
  }

  /** Index of the last line of the given kind. */
  function Last(lines: seq<Line>, kind: LineKind): (r: Option<nat>)
    ensures r.None? <==> forall j :: 0 <= j < |lines| ==> !Is(kind, lines[j])
    ensures r.Some? ==> r.value < |lines| && Is(kind, lines[r.value])
    ensures r.Some? ==> forall j :: r.value < j < |lines| ==> !Is(kind, lines[j])
  {
    if |lines| == 0 then None
    else if Is(kind, lines[|lines| - 1]) then Some(|lines| - 1)
    else Last(lines[..|lines| - 1], kind)
  }

  /** The keys the scan can produce. */
  predicate ScanKey(k: string) {
    k == "name" || k == "readings" || k == "model" || k == "serial"
  }

  /** The reading message, or none when no attribute line was seen. */
  function ParseSmart(name: string, lines: seq<Line>): (r: Result<Option<Message>, Fault>)
    ensures r.Ok? <==> Scan(name, lines).Ok?
    ensures r.Ok? && r.value.Some? ==> r.value.value == Scan(name, lines).value && Has(r.value.value, "readings")
  {
    var m :- Scan(name, lines);
    if Has(m, "readings") then Ok(Some(m)) else Ok(None)
  }

  /** The scan fails exactly when some line faults, and then with the first line's fault. */
  lemma ScanFaults(name: string, lines: seq<Line>)
    ensures Scan(name, lines).Ok? <==> forall i :: 0 <= i < |lines| ==> LineFault(lines[i]) == None
    ensures Scan(name, lines).Err? ==>
      exists i :: 0 <= i < |lines| && LineFault(lines[i]) == Some(Scan(name, lines).error)
                  && forall j :: 0 <= j < i ==> LineFault(lines[j]) == None
  {
    ScanFirstFault(name, lines);
    FirstFaultIsFirst(lines);
  }

  /** The fault of the earliest faulting line, if any. */
  function FirstFault(lines: seq<Line>): Option<Fault> {
    if |lines| == 0 then None
    else
      var earlier := FirstFault(lines[..|lines| - 1]);
      if earlier.Some? then earlier else LineFault(lines[|lines| - 1])
  }

  lemma {:induction false} ScanFirstFault(name: string, lines: seq<Line>)
    ensures Scan(name, lines).Ok? <==> FirstFault(lines).None?
    ensures Scan(name, lines).Err? ==> FirstFault(lines) == Some(Scan(name, lines).error)
  {
    if |lines| > 0 {
      ScanFirstFault(name, lines[..|lines| - 1]);
      ScanSnoc(name, lines);
    }
  }

  lemma {:induction false} FirstFaultIsFirst(lines: seq<Line>)
    ensures FirstFault(lines).None? <==> forall i :: 0 <= i < |lines| ==> LineFault(lines[i]) == None
    ensures FirstFault(lines).Some? ==>
      exists i :: 0 <= i < |lines| && LineFault(lines[i]) == FirstFault(lines)
                  && forall j :: 0 <= j < i ==> LineFault(lines[j]) == None
  {
    if |lines| > 0 {
      var init := lines[..|lines| - 1];
      FirstFaultIsFirst(init);
      assert forall i :: 0 <= i < |init| ==> init[i] == lines[i];
      if FirstFault(init).Some? {
        var i :| 0 <= i < |init| && LineFault(init[i]) == FirstFault(init)
                 && forall j :: 0 <= j < i ==> LineFault(init[j]) == None;
        assert LineFault(lines[i]) == FirstFault(lines);
      } else if FirstFault(lines).Some? {
        assert LineFault(lines[|lines| - 1]) == FirstFault(lines);
      }
    }
  }

  /** One more line: the scan stays failed, or fails on that line, or goes on. */
  lemma ScanSnoc(name: string, lines: seq<Line>)
    requires |lines| > 0
    ensures var prev := Scan(name, lines[..|lines| - 1]);
            var last := lines[|lines| - 1];
            && (Scan(name, lines).Ok? <==> prev.Ok? && LineFault(last) == None)
            && (prev.Err? ==> Scan(name, lines) == prev)
            && (prev.Ok? && Scan(name, lines).Err? ==> LineFault(last) == Some(Scan(name, lines).error))
  {
  }

  /** The value a field holds after the scan: the one written by the last line of its kind. */
  function FieldFrom(lines: seq<Line>, kind: LineKind): Option<Value> {
    match Last(lines, kind)
    case None => None
    case Some(i) =>
      match kind
      case Attribute => RawValue(lines[i])
      case _ => Some(LabelText(lines[i]))
  }

  /** Later lines overwrite earlier ones: each field holds what the last line of its kind wrote. */
  lemma {:induction false} ScanFields(name: string, lines: seq<Line>)
    requires Scan(name, lines).Ok?
    ensures Get(Scan(name, lines).value, "readings") == FieldFrom(lines, Attribute)
    ensures Get(Scan(name, lines).value, "model") == FieldFrom(lines, ModelLabel)
    ensures Get(Scan(name, lines).value, "serial") == FieldFrom(lines, SerialLabel)
  {
    if |lines| == 0 {
      FindUnique([("name", Str(name))], "readings", 1);
      FindUnique([("name", Str(name))], "model", 1);
      FindUnique([("name", Str(name))], "serial", 1);
    } else {
      var init := lines[..|lines| - 1];
      var line := lines[|lines| - 1];
      ScanFields(name, init);
      var m := Scan(name, init).value;
      StepFields(m, line);
      LastStep(lines, Attribute);
      LastStep(lines, ModelLabel);
      LastStep(lines, SerialLabel);
    }
  }

  lemma LastStep(lines: seq<Line>, kind: LineKind)
    requires |lines| > 0
    ensures FieldFrom(lines, kind) ==
      if Is(kind, lines[|lines| - 1]) then (if kind == Attribute then RawValue(lines[|lines| - 1]) else Some(LabelText(lines[|lines| - 1])))
      else FieldFrom(lines[..|lines| - 1], kind)
  {
    if !Is(kind, lines[|lines| - 1]) {
      var init := lines[..|lines| - 1];
      match Last(init, kind)
      case None =>
      case Some(i) => assert lines[i] == init[i];
    }
  }

  /** One line updates only the fields of its own kind. */
  lemma StepFields(m: Message, line: Line)
    requires Step(m, line).Ok?
    ensures Get(Step(m, line).value, "readings") == if Is(Attribute, line) then RawValue(line) else Get(m, "readings")
    ensures Get(Step(m, line).value, "model") == if Is(ModelLabel, line) then Some(LabelText(line)) else Get(m, "model")
    ensures Get(Step(m, line).value, "serial") == if Is(SerialLabel, line) then Some(LabelText(line)) else Get(m, "serial")
  {
    var m1 := AttributeStep(m, line).value;
    var m2 := LabelStep(m1, line, "Device", "Model:", "model").value;
    StepReadings(m, m1, m2, line);
    StepModel(m, m1, m2, line);
    StepSerial(m, m1, m2, line);
  }

  lemma StepReadings(m: Message, m1: Message, m2: Message, line: Line)
    requires Step(m, line).Ok?
    requires m1 == AttributeStep(m, line).value && m2 == LabelStep(m1, line, "Device", "Model:", "model").value
    ensures Get(Step(m, line).value, "readings") == if Is(Attribute, line) then RawValue(line) else Get(m, "readings")
  {
    assert Get(m2, "readings") == Get(m1, "readings");
  }

  lemma StepModel(m: Message, m1: Message, m2: Message, line: Line)
    requires Step(m, line).Ok?
    requires m1 == AttributeStep(m, line).value && m2 == LabelStep(m1, line, "Device", "Model:", "model").value
    ensures Get(Step(m, line).value, "model") == if Is(ModelLabel, line) then Some(LabelText(line)) else Get(m, "model")
  {
    assert Get(m1, "model") == Get(m, "model");
  }

  lemma StepSerial(m: Message, m1: Message, m2: Message, line: Line)
    requires Step(m, line).Ok?
    requires m1 == AttributeStep(m, line).value && m2 == LabelStep(m1, line, "Device", "Model:", "model").value
    ensures Get(Step(m, line).value, "serial") == if Is(SerialLabel, line) then Some(LabelText(line)) else Get(m, "serial")
  {
    assert Get(m2, "serial") == Get(m1, "serial");
    assert Get(m1, "serial") == Get(m, "serial");
  }

  /** A disk contributes no message exactly when no line starts with 190 or 194. */
  lemma ParseSmartSkips(name: string, lines: seq<Line>)
    requires Scan(name, lines).Ok?
    ensures ParseSmart(name, lines).value.None? <==> Last(lines, Attribute).None?
  {
    ScanFields(name, lines);
    ScanFaults(name, lines);
    if Last(lines, Attribute).Some? {
      assert LineFault(lines[Last(lines, Attribute).value]) == None;
    }
  }

  /** The scan produces no key besides name, readings, model and serial. */
  lemma ScanLacks(name: string, lines: seq<Line>, k: string)
    requires Scan(name, lines).Ok? && !ScanKey(k)
    ensures Get(Scan(name, lines).value, k) == None
  {
  }

  /** Formatting never fails on a scanned disk message that has a reading;
      the disk's name then carries the last attribute line's raw value. */
  lemma DiskRecord(name: string, lines: seq<Line>, host: Host, serialize: Serializer)
    requires Scan(name, lines).Ok? && Last(lines, Attribute).Some?
    ensures var m := Scan(name, lines).value;
            var r := FormatMessage(m, host, serialize);
            && r.Ok?
            && Get(r.value.record, "readings") == None
            && RawNumber(lines[Last(lines, Attribute).value]).Some?
            && (name != "readings" ==> Get(r.value.record, name) == Some(Num(RawNumber(lines[Last(lines, Attribute).value]).value)))
            && (name != "model" ==> Get(r.value.record, "model") == FieldFrom(lines, ModelLabel))
            && (name != "serial" ==> Get(r.value.record, "serial") == FieldFrom(lines, SerialLabel))
  {
    var m := Scan(name, lines).value;
    DiskMessage(name, lines);
    FormatKeeps(m, name, MeanOf(m).value, host, serialize);
  }

  lemma FormatKeeps(m: Message, name: string, mean: real, host: Host, serialize: Serializer)
    requires WellFormed(m) && Pri(m).Ok? && NameOf(m) == Ok(name) && MeanOf(m) == Ok(mean)
    ensures var r := FormatMessage(m, host, serialize);
            && r.Ok?
            && Get(r.value.record, "readings") == None
            && (name != "readings" ==> Get(r.value.record, name) == Some(Num(mean)))
            && (name != "model" ==> Get(r.value.record, "model") == Get(m, "model"))
            && (name != "serial" ==> Get(r.value.record, "serial") == Get(m, "serial"))
  {
    ReshapeKeepsKey(m, name, mean, host, "model");
    ReshapeKeepsKey(m, name, mean, host, "serial");
  }

  lemma ReshapeKeepsKey(m: Message, name: string, mean: real, host: Host, k: string)
    requires WellFormed(m) && ScanKey(k) && k != "readings" && k != "name"
    ensures name != k ==> Get(Reshape(m, name, mean, host), k) == Get(m, k)
  {
    if name != k {
      assert Untouched(k, name);
    }
  }

  /** The scanned message of a disk with a reading, as `format_message` sees it. */
  lemma DiskMessage(name: string, lines: seq<Line>)
    requires Scan(name, lines).Ok? && Last(lines, Attribute).Some?
    ensures var m := Scan(name, lines).value;
            var v := RawNumber(lines[Last(lines, Attribute).value]);
            && v.Some?
            && Pri(m) == Ok(30)
            && NameOf(m) == Ok(name)
            && MeanOf(m) == Ok(v.value)
            && Get(m, "model") == FieldFrom(lines, ModelLabel)
            && Get(m, "serial") == FieldFrom(lines, SerialLabel)
  {
    var m := Scan(name, lines).value;
    var i := Last(lines, Attribute).value;
    ScanFields(name, lines);
    assert LineFault(lines[i]) == None by {
      ScanFaults(name, lines);
    }
    var v := RawNumber(lines[i]).value;
    assert MeanOf(m) == Ok(v) by {
      assert Get(m, "readings") == Some(Nums([v]));
      MeanExamples(v);
    }
    assert Pri(m) == Ok(30) by {
      ScanLacks(name, lines, "Facility");
      ScanLacks(name, lines, "Priority");
    }
  }

  /** `load_disk` after the configuration lookups: it fails exactly when the
      device lookup or the scan fails, emits nothing exactly when the tool's
      output held no temperature attribute, and otherwise emits the formatted
      scan. */
  function LoadDisk(cfg: DiskConfig, name: string, tool: string -> seq<Line>, host: Host, serialize: Serializer)
    : (r: Result<Option<Formatted>, Fault>)
    ensures r.Ok? <==> Device(cfg, name).Ok? && Scan(name, tool(Command(cfg, name).value)).Ok?
    ensures Device(cfg, name).Err? ==> r == Err(Device(cfg, name).error)
    ensures r.Ok? ==> (r.value.None? <==> Last(tool(Command(cfg, name).value), Attribute).None?)
    ensures r.Ok? && r.value.Some? ==>
      var f := FormatMessage(Scan(name, tool(Command(cfg, name).value)).value, host, serialize);
      f.Ok? && r.value.value == f.value
  {
    var command :- Command(cfg, name);
    var lines := tool(command);
    var parsed :- ParseSmart(name, lines);
    ParseSmartSkips(name, lines);
    match parsed
    case None => Ok(None)
    case Some(m) =>
      DiskRecord(name, lines, host, serialize);
      Ok(Some(FormatMessage(m, host, serialize).value))
  }
}

=== FILE: pyint.dfy ===
/** Python's bitwise `|` on unbounded integers, which behave as infinite
    two's-complement bit strings: `a | b == ~(~a & ~b)` with `~x == -x - 1`. */
module PyInt {

  /** 2 to the power k. */
  function Pow2(k: nat): (r: nat)
    ensures r >= 1
  {
    if k == 0 then 1 else 2 * Pow2(k - 1)
  }

  /** Bitwise or of two non-negative integers. */
  function OrNat(a: nat, b: nat): nat
    decreases a + b
  {
    if a == 0 then b
    else if b == 0 then a
    else 2 * OrNat(a / 2, b / 2) + (if a % 2 == 1 || b % 2 == 1 then 1 else 0)
  }

  /** Bitwise and of two non-negative integers. */
  function AndNat(a: nat, b: nat): nat
  {
    if a == 0 || b == 0 then 0
    else 2 * AndNat(a / 2, b / 2) + (if a % 2 == 1 && b % 2 == 1 then 1 else 0)
  }

  /** The bits of `a` that are clear in `b` (`a & ~b`), both non-negative. */
  function AndNotNat(a: nat, b: nat): nat
  {
    if a == 0 then 0
    else 2 * AndNotNat(a / 2, b / 2) + (if a % 2 == 1 && b % 2 == 0 then 1 else 0)
  }

  /** Python's `a | b` for arbitrary integers. */
  function Or(a: int, b: int): int
  {
    if a >= 0 && b >= 0 then OrNat(a, b)
    else if a < 0 && b < 0 then -(AndNat(-a - 1, -b - 1) as int) - 1
    else if a < 0 then -(AndNotNat(-a - 1, b) as int) - 1
    else -(AndNotNat(-b - 1, a) as int) - 1
  }

  /** Or-ing a value below 2^k into a multiple of 2^k is addition. */
  lemma {:induction false} OrNatDisjoint(c: nat, k: nat, p: nat)
    requires p < Pow2(k)
    ensures OrNat(c * Pow2(k), p) == c * Pow2(k) + p
  {
    if k == 0 {
      assert p == 0;
    } else if c == 0 || p == 0 {
    } else {
      var half := Pow2(k - 1);
      assert c * Pow2(k) == 2 * (c * half);
      assert (c * Pow2(k)) / 2 == c * half;
      assert (c * Pow2(k)) % 2 == 0;
      OrNatDisjoint(c, k - 1, p / 2);
    }
  }

  /** Clearing the bits of `p < 2^k` from a value whose low k bits are all
      set subtracts `p`. */
  lemma {:induction false} AndNotLowOnes(c: nat, k: nat, p: nat)
    requires p < Pow2(k)
    ensures AndNotNat(c * Pow2(k) + Pow2(k) - 1, p) == c * Pow2(k) + Pow2(k) - 1 - p
  {
    if k == 0 {
      assert p == 0;
      assert c * Pow2(k) + Pow2(k) - 1 == c;
      AndNotZero(c);
    } else {
      var half := Pow2(k - 1);
      var x := c * Pow2(k) + Pow2(k) - 1;
      assert c * Pow2(k) == 2 * (c * half);
      assert x == 2 * (c * half + half - 1) + 1;
      assert x / 2 == c * half + half - 1;
      assert x % 2 == 1;
      AndNotLowOnes(c, k - 1, p / 2);
    }
  }

  lemma {:induction false} AndNotZero(a: nat)
    ensures AndNotNat(a, 0) == a
  {
    if a != 0 {
      AndNotZero(a / 2);
    }
  }

  /** `(f << 3) | p` equals `8 * f + p` for every integer `f` when the low part
      stays within three bits. */
  lemma OrShiftedLowBits(f: int, p: int)
    requires 0 <= p < 8
    ensures Or(f * 8, p) == f * 8 + p
  {
    assert Pow2(3) == 8;
    if f >= 0 {
      OrNatDisjoint(f, 3, p);
    } else {
      var c: nat := -f - 1;
      assert -(f * 8) - 1 == c * 8 + 8 - 1;
      AndNotLowOnes(c, 3, p);
    }
  }

  /** Outside that range the bits can collide: facility 3 with priority 8 gives 24, not 32. */
  lemma OrCollides()
    ensures Or(3 * 8, 8) == 24
  {
    assert OrNat(24, 8) == 2 * OrNat(12, 4);
    assert OrNat(12, 4) == 2 * OrNat(6, 2);
    assert OrNat(6, 2) == 2 * OrNat(3, 1);
  }
}

=== FILE: record.dfy ===
/** The message dictionaries the agent builds and serialises. A Python
    `dict` keeps insertion order, and `json.dumps` writes keys in that order,
    so a message is an ordered list of fields; assigning to an existing key
    keeps its position and assigning to a new key appends it. */
module Record {
  import opened Results

  /** The JSON values a message field holds. */
  datatype Value =
    | Str(s: string)
    | Int(i: int)
    | Num(x: real)
    | Nums(xs: seq<real>)

  type Message = seq<(string, Value)>

  /** The dictionary invariant: no key appears twice. */
  predicate WellFormed(m: Message) {
    forall i, j :: 0 <= i < j < |m| ==> m[i].0 != m[j].0
  }

  /** Position of the first field named `k`, or `|m|` when there is none. */
  function Find(m: Message, k: string): (i: nat)
    ensures i <= |m|
    ensures i < |m| ==> m[i].0 == k
    ensures forall j :: 0 <= j < i ==> m[j].0 != k
  {
    if |m| == 0 then 0 else if m[0].0 == k then 0 else 1 + Find(m[1..], k)
  }

  /** Any position that is the first occurrence of `k` (or past the end with no occurrence) is `Find`'s answer. */
  lemma FindUnique(m: Message, k: string, i: nat)
    requires i <= |m|
    requires i < |m| ==> m[i].0 == k
    requires forall j :: 0 <= j < i ==> m[j].0 != k
    ensures Find(m, k) == i
  {
  }

  /** `k in d`. */
  predicate Has(m: Message, k: string) {
    Find(m, k) < |m|
  }

  /** `d.get(k)`. */
  function Get(m: Message, k: string): (r: Option<Value>)
    ensures r.Some? <==> exists i :: 0 <= i < |m| && m[i].0 == k
    ensures r.Some? ==> (k, r.value) in m
  {
    var i := Find(m, k);
    if i == |m| then None else Some(m[i].1)
  }

  /** `d[k] = v`. */
  function Set(m: Message, k: string, v: Value): (r: Message)
    ensures Get(r, k) == Some(v)
    ensures forall k' :: k' != k ==> Get(r, k') == Get(m, k')
    ensures |r| == if Has(m, k) then |m| else |m| + 1
    ensures forall i :: 0 <= i < |m| ==> r[i].0 == m[i].0
    ensures WellFormed(m) ==> WellFormed(r)
  {
    var i := Find(m, k);
    if i == |m| then
      var r := m + [(k, v)];
      FindUnique(r, k, i);
      forall k' | k' != k
        ensures Get(r, k') == Get(m, k')
      {
        var j := Find(m, k');
        if j == |m| {
          FindUnique(r, k', |r|);
        } else {
          FindUnique(r, k', j);
        }
      }
      r
    else
      var r := m[i := (k, v)];
      FindUnique(r, k, i);
      forall k' | k' != k
        ensures Get(r, k') == Get(m, k')
      {
        FindUnique(r, k', Find(m, k'));
      }
      r
  }

  /** `del d[k]` for a key that may be absent (the source only deletes keys it knows are present). */
  function Delete(m: Message, k: string): (r: Message)
    ensures !Has(m, k) ==> r == m
    ensures Has(m, k) ==> exists i :: 0 <= i < |m| && m[i].0 == k && r == m[..i] + m[i + 1..]
    ensures forall k' :: k' != k ==> Get(r, k') == Get(m, k')
    ensures WellFormed(m) ==> WellFormed(r) && Get(r, k) == None
  {
    var i := Find(m, k);
    if i == |m| then m
    else
      var r := m[..i] + m[i + 1..];
      RemoveAt(m, i, r);
      forall k' | k' != k
        ensures Get(r, k') == Get(m, k')
      {
        var j := Find(m, k');
        if j < i {
          FindUnique(r, k', j);
        } else {
          FindUnique(r, k', j - 1);
        }
      }
      assert WellFormed(m) ==> Find(r, k) == |r| by {
        if WellFormed(m) {
          FindUnique(r, k, |r|);
        }
      }
      r
  }

  /** Assigning a new key appends it. */
  lemma SetNew(m: Message, k: string, v: Value)
    requires !Has(m, k)
    ensures Set(m, k, v) == m + [(k, v)]
  {
  }

  /** Appending a field leaves every other key absent that was absent. */
  lemma AbsentAfterAppend(m: Message, k: string, v: Value, other: string)
    requires !Has(m, other) && other != k
    ensures !Has(m + [(k, v)], other)
  {
    FindUnique(m + [(k, v)], other, |m| + 1);
  }

  /** Deleting a present key cuts out its first occurrence. */
  lemma DeleteFound(m: Message, k: string)
    requires Has(m, k)
    ensures Delete(m, k) == m[..Find(m, k)] + m[Find(m, k) + 1..]
  {
  }

  /** Cutting a field out of `m + t` at a position inside `m` leaves `t` untouched. */
  lemma CutAppend(m: Message, t: Message, i: nat)
    requires i < |m|
    ensures (m + t)[..i] + (m + t)[i + 1..] == (m[..i] + m[i + 1..]) + t
  {
    assert (m + t)[..i] == m[..i];
    assert (m + t)[i + 1..] == m[i + 1..] + t;
  }

  /** Where the fields of `m` land in `r` once the field at `i` is cut out. */
  lemma RemoveAt(m: Message, i: nat, r: Message)
    requires i < |m| && r == m[..i] + m[i + 1..]
    ensures |r| == |m| - 1
    ensures forall a :: 0 <= a < i ==> r[a] == m[a]
    ensures forall a :: i <= a < |r| ==> r[a] == m[a + 1]
    ensures WellFormed(m) ==> WellFormed(r)
    ensures WellFormed(m) ==> forall a :: 0 <= a < |r| ==> r[a].0 != m[i].0
  {
    if WellFormed(m) {
      forall a, b | 0 <= a < b < |r|
        ensures r[a].0 != r[b].0
      {
        var a' := if a < i then a else a + 1;
        var b' := if b < i then b else b + 1;
        assert r[a] == m[a'] && r[b] == m[b'];
      }
      forall a | 0 <= a < |r|
        ensures r[a].0 != m[i].0
      {
        var a' := if a < i then a else a + 1;
        assert r[a] == m[a'];
      }
    }
  }
}

=== FILE: results.dfy ===
/** Failure-compatible wrappers and the faults the agent can raise.
    Each fault names the Python exception the source would raise at that
    point; the agent catches none of them, so any fault leaves `gather` and
    `main` and ends the process. */
module Results {

  datatype Option<+T> = None | Some(value: T)

  datatype Result<+T, +E> = Ok(value: T) | Err(error: E) {

    predicate IsFailure() {
      Err?
    }

    function PropagateFailure<U>(): Result<U, E>
      requires Err?
    {
      Err(error)
    }

    function Extract(): T
      requires Ok?
    {
      value
    }
  }

  /** What a loop that appends one result per element leaves behind: the
      results appended so far and, if an iteration raised, its fault. */
  datatype Partial<+U, +E> = Partial(done: seq<U>, fault: Option<E>)

  /** Applies `f` to every element in order, keeping each result, and stops at
      the first failure, as a Python loop that appends to a list does when one
      iteration raises: the results appended before it stay. */
  function Run<T, U, E>(xs: seq<T>, f: T -> Result<U, E>): (r: Partial<U, E>)
    ensures |r.done| <= |xs|
    ensures forall i :: 0 <= i < |r.done| ==> f(xs[i]) == Ok(r.done[i])
    ensures r.fault.None? <==> |r.done| == |xs|
    ensures r.fault.Some? ==> f(xs[|r.done|]) == Err(r.fault.value)
  {
    if |xs| == 0 then Partial([], None)
    else
      match f(xs[0])
      case Err(e) => Partial([], Some(e))
      case Ok(u) =>
        var rest := Run(xs[1..], f);
        assert forall i :: 0 <= i < |xs| - 1 ==> xs[1..][i] == xs[i + 1];
        Partial([u] + rest.done, rest.fault)
  }

  datatype Fault =
    | MissingKey(key: string)     // KeyError: a dict lookup on an absent key
    | IndexOutOfRange             // IndexError: a list index past the end
    | NotAMapping                 // AttributeError: `.keys()` on a number
    | NoMatch                     // TypeError: `reduce` of an empty list with no initial value
    | NotNumeric                  // TypeError: arithmetic on a selected value that is an object
    | EmptyReadings               // TypeError: `reduce` over an empty `readings` list
    | BadField(key: string)       // TypeError: a message field of the wrong JSON type
    | NotAnInteger(token: string) // ValueError: `int()` of a token that is not a decimal integer
}

=== FILE: schedule.dfy ===
/** The wait at the end of each cycle in `main`. */
module Schedule {

  /** `t` is a multiple of `interval`: a cycle boundary. */
  predicate OnBoundary(interval: int, t: int)
    requires interval > 0
  {
    t % interval == 0
  }

  /** `INTERVAL - time() % INTERVAL` in whole seconds. Python's `%` with a
      positive divisor is never negative, like Dafny's. The result is the wait
      until the next boundary strictly after `now`. */
  function SleepSeconds(interval: int, now: int): (wait: int)
    requires interval > 0
    ensures 0 < wait <= interval
    ensures OnBoundary(interval, now + wait)
    ensures forall t :: now < t < now + wait ==> !OnBoundary(interval, t)
  {
    var q := now / interval;
    var wait := interval - now % interval;
    assert now + wait == (q + 1) * interval;
    BoundaryAt(interval, q + 1);
    forall t | now < t < now + wait
      ensures !OnBoundary(interval, t)
    {
      Between(interval, q, t);
    }
    wait
  }

  lemma BoundaryAt(interval: int, k: int)
    requires interval > 0
    ensures OnBoundary(interval, k * interval)
  {
    var t := k * interval;
    var d := t / interval;
    assert (d - k) * interval == -(t % interval);
    Scale(d - k, interval);
  }

  /** A non-zero multiple of `interval` is at least `interval` away from 0. */
  lemma Scale(c: int, interval: int)
    requires interval > 0
    ensures c > 0 ==> c * interval >= interval
    ensures c < 0 ==> c * interval <= -interval
  {
    if c > 0 {
      NonNegative(c - 1, interval);
      assert c * interval == interval + (c - 1) * interval;
    } else if c < 0 {
      NonNegative(-c - 1, interval);
      assert c * interval == -interval - (-c - 1) * interval;
    }
  }

  lemma {:induction false} NonNegative(a: nat, b: int)
    requires b > 0
    ensures a * b >= 0
  {
    if a > 0 {
      assert a * b == (a - 1) * b + b;
      NonNegative(a - 1, b);
    }
  }

  /** No boundary lies strictly between `q * interval` and `(q + 1) * interval`. */
  lemma Between(interval: int, q: int, t: int)
    requires interval > 0
    requires q * interval < t < (q + 1) * interval
    ensures !OnBoundary(interval, t)
  {
    if t % interval == 0 {
      var k := t / interval;
      assert t == k * interval;
      assert 0 < (k - q) * interval < interval;
      Scale(k - q, interval);
      assert false;
    }
  }

  /** With a 60-second interval, a cycle that ends at second 23 sleeps 37 seconds. */
  lemma SleepExample()
    ensures SleepSeconds(60, 23) == 37
  {
  }
}

=== FILE: sensor_tree.dfy ===
/** Locating readings in the output of `sensors -j`: a tree of JSON objects
    walked with one key pattern per depth (`select_readings`). */
module SensorTree {
  import opened Results

  /** A JSON number, or an object whose members keep the order the tool wrote them in. */
  datatype Tree = Leaf(value: real) | Node(children: seq<(string, Tree)>)

  /** The pattern test applied to a key. The source uses `re.match(pattern, key)`,
      which is anchored at the start of the key but not at its end; the regular
      expression language itself is left abstract. */
  type Matcher = (string, string) -> bool

  /** `select_readings(t, selectors)`: with one selector, the numbers under the
      matching keys; with more, the concatenation of the selections made, with
      the remaining selectors, in every matching child. */
  function Select(t: Tree, selectors: seq<string>, matches: Matcher): (r: Result<seq<real>, Fault>)
    ensures t.Leaf? ==> r == Err(NotAMapping)
    ensures t.Node? && |selectors| == 1 && NoKeyMatches(t.children, selectors[0], matches) ==> r == Ok([])
    ensures t.Node? && |selectors| > 1 && NoKeyMatches(t.children, selectors[0], matches) ==> r == Err(NoMatch)
    ensures r.Ok? && |selectors| == 1 ==> |r.value| <= |t.children|
    decreases t, 1
  {
    match t
    case Leaf(_) => Err(NotAMapping)
    case Node(cs) =>
      if |selectors| == 0 then
        // `sensor_device[0]` is only evaluated once there is a key to test.
        if |cs| == 0 then Err(NoMatch) else Err(IndexOutOfRange)
      else if |selectors| == 1 then
        MatchedLeaves(cs, selectors[0], matches)
      else
        var parts :- Descend(cs, selectors, matches, t);
        if |parts| == 0 then Err(NoMatch) else Ok(Flatten(parts))
  }

  predicate NoKeyMatches(cs: seq<(string, Tree)>, pattern: string, matches: Matcher) {
    forall i :: 0 <= i < |cs| ==> !matches(pattern, cs[i].0)
  }

  /** The base-case list comprehension over the children, in key order. */
  function MatchedLeaves(cs: seq<(string, Tree)>, pattern: string, matches: Matcher): (r: Result<seq<real>, Fault>)
    ensures NoKeyMatches(cs, pattern, matches) ==> r == Ok([])
    ensures r.Ok? ==> |r.value| <= |cs|
  {
    if |cs| == 0 then Ok([])
    else
      var rest :- MatchedLeaves(cs[1..], pattern, matches);
      if !matches(pattern, cs[0].0) then Ok(rest)
      else if cs[0].1.Leaf? then Ok([cs[0].1.value] + rest)
      else Err(NotNumeric)
  }

  /** The recursive-case list comprehension: one selection per matching child, in key order. */
  function Descend(cs: seq<(string, Tree)>, selectors: seq<string>, matches: Matcher, ghost parent: Tree)
    : (r: Result<seq<seq<real>>, Fault>)
    requires |selectors| > 0
    requires forall i :: 0 <= i < |cs| ==> cs[i].1 < parent
    ensures NoKeyMatches(cs, selectors[0], matches) ==> r == Ok([])
    decreases parent, 0, |cs|
  {
    if |cs| == 0 then Ok([])
    else if !matches(selectors[0], cs[0].0) then Descend(cs[1..], selectors, matches, parent)
    else
      var first :- Select(cs[0].1, selectors[1..], matches);
      var rest :- Descend(cs[1..], selectors, matches, parent);
      Ok([first] + rest)
  }

  /** `reduce(lambda a, b: a + b, parts)` for a non-empty list of lists. */
  function Flatten(parts: seq<seq<real>>): seq<real> {
    if |parts| == 0 then [] else parts[0] + Flatten(parts[1..])
  }

  /** The children whose key matches `pattern`, in key order. */
  function Matching(cs: seq<(string, Tree)>, pattern: string, matches: Matcher): (r: seq<(string, Tree)>)
    ensures forall c :: c in r <==> c in cs && matches(pattern, c.0)
    ensures |r| <= |cs|
    ensures |r| == 0 <==> NoKeyMatches(cs, pattern, matches)
  {
    if |cs| == 0 then []
    else if matches(pattern, cs[0].0) then [cs[0]] + Matching(cs[1..], pattern, matches)
    else
      assert forall c :: c in cs <==> c == cs[0] || c in cs[1..];
      Matching(cs[1..], pattern, matches)
  }

  /** Filtering distributes over concatenation, so the matching children keep their relative order. */
  lemma {:induction false} MatchingAppend(a: seq<(string, Tree)>, b: seq<(string, Tree)>, pattern: string, matches: Matcher)
    ensures Matching(a + b, pattern, matches) == Matching(a, pattern, matches) + Matching(b, pattern, matches)
  {
    if |a| > 0 {
      assert (a + b)[1..] == a[1..] + b;
      MatchingAppend(a[1..], b, pattern, matches);
    } else {
      assert a + b == b;
    }
  }

  lemma AllLeavesCons(c: (string, Tree), rest: seq<(string, Tree)>)
    ensures AllLeaves([c] + rest) <==> c.1.Leaf? && AllLeaves(rest)
  {
    var cs := [c] + rest;
    assert cs[0] == c;
    assert forall i :: 0 <= i < |rest| ==> cs[i + 1] == rest[i];
  }

  predicate AllLeaves(cs: seq<(string, Tree)>) {
    forall i :: 0 <= i < |cs| ==> cs[i].1.Leaf?
  }

  /** Base case: with a single selector the result is the value of every
      matching child, in key order, and fails only if a matching child is not a number. */
  lemma {:induction false} SelectSingle(cs: seq<(string, Tree)>, selectors: seq<string>, matches: Matcher)
    requires |selectors| == 1
    ensures var m := Matching(cs, selectors[0], matches);
            var r := Select(Node(cs), selectors, matches);
            && (r.Ok? <==> AllLeaves(m))
            && (r.Err? ==> r.error == NotNumeric)
            && (r.Ok? ==> |r.value| == |m| && forall j :: 0 <= j < |m| ==> r.value[j] == m[j].1.value)
  {
    MatchedLeavesIsMatching(cs, selectors[0], matches);
  }

  lemma {:induction false} MatchedLeavesIsMatching(cs: seq<(string, Tree)>, pattern: string, matches: Matcher)
    ensures var m := Matching(cs, pattern, matches);
            var r := MatchedLeaves(cs, pattern, matches);
            && (r.Ok? <==> AllLeaves(m))
            && (r.Err? ==> r.error == NotNumeric)
            && (r.Ok? ==> |r.value| == |m| && forall j :: 0 <= j < |m| ==> r.value[j] == m[j].1.value)
  {
    if |cs| > 0 {
      MatchedLeavesIsMatching(cs[1..], pattern, matches);
      var m := Matching(cs, pattern, matches);
      var m' := Matching(cs[1..], pattern, matches);
      if matches(pattern, cs[0].0) {
        assert m == [cs[0]] + m';
        AllLeavesCons(cs[0], m');
      }
    }
  }

  /** The selections a list of children yields, first failure first. */
  function Collect(cs: seq<(string, Tree)>, selectors: seq<string>, matches: Matcher): (r: Result<seq<seq<real>>, Fault>)
  {
    if |cs| == 0 then Ok([])
    else
      var first :- Select(cs[0].1, selectors, matches);
      var rest :- Collect(cs[1..], selectors, matches);
      Ok([first] + rest)
  }

  /** Recursive case: with several selectors the result is the concatenation,
      in key order, of the selections made with the remaining selectors in the
      matching children; it fails with the first failing child's fault, or
      with `NoMatch` when no key matches. */
  lemma SelectRecursive(cs: seq<(string, Tree)>, selectors: seq<string>, matches: Matcher)
    requires |selectors| > 1
    ensures var m := Matching(cs, selectors[0], matches);
            var r := Select(Node(cs), selectors, matches);
            && (|m| == 0 ==> r == Err(NoMatch))
            && (r.Ok? <==> |m| > 0 && forall j :: 0 <= j < |m| ==> Select(m[j].1, selectors[1..], matches).Ok?)
            && (r.Ok? ==> r.value == Flatten(seq(|m|, j requires 0 <= j < |m| => Select(m[j].1, selectors[1..], matches).value)))
            && (|m| > 0 && r.Err? ==> exists j :: 0 <= j < |m| && r == Select(m[j].1, selectors[1..], matches)
                                              && forall i :: 0 <= i < j ==> Select(m[i].1, selectors[1..], matches).Ok?)
  {
    var m := Matching(cs, selectors[0], matches);
    DescendIsCollect(cs, selectors, matches, Node(cs));
    CollectOk(m, selectors[1..], matches);
  }

  lemma {:induction false} DescendIsCollect(cs: seq<(string, Tree)>, selectors: seq<string>, matches: Matcher, parent: Tree)
    requires |selectors| > 0
    requires forall i :: 0 <= i < |cs| ==> cs[i].1 < parent
    ensures Descend(cs, selectors, matches, parent) == Collect(Matching(cs, selectors[0], matches), selectors[1..], matches)
  {
    if |cs| > 0 {
      DescendIsCollect(cs[1..], selectors, matches, parent);
      if matches(selectors[0], cs[0].0) {
        var m := Matching(cs, selectors[0], matches);
        assert m[0] == cs[0] && m[1..] == Matching(cs[1..], selectors[0], matches);
      }
    }
  }

  lemma {:induction false} CollectOk(cs: seq<(string, Tree)>, selectors: seq<string>, matches: Matcher)
    ensures var r := Collect(cs, selectors, matches);
            && (r.Ok? <==> forall j :: 0 <= j < |cs| ==> Select(cs[j].1, selectors, matches).Ok?)
            && (r.Ok? ==> r.value == seq(|cs|, j requires 0 <= j < |cs| => Select(cs[j].1, selectors, matches).value))
            && (r.Err? ==> exists j :: 0 <= j < |cs| && Select(cs[j].1, selectors, matches) == Err(r.error)
                                   && forall i :: 0 <= i < j ==> Select(cs[i].1, selectors, matches).Ok?)
  {
    if |cs| > 0 {
      CollectOk(cs[1..], selectors, matches);
      var r := Collect(cs, selectors, matches);
      var rest := Collect(cs[1..], selectors, matches);
      if Select(cs[0].1, selectors, matches).Ok? && rest.Ok? {
        assert r.value == [Select(cs[0].1, selectors, matches).value] + rest.value;
      } else if rest.Err? && Select(cs[0].1, selectors, matches).Ok? {
        var j :| 0 <= j < |cs[1..]| && Select(cs[1..][j].1, selectors, matches) == Err(rest.error);
        assert Select(cs[j + 1].1, selectors, matches) == Err(r.error);
        assert forall i :: 0 <= i < j ==> cs[1..][i] == cs[i + 1];
      }
    }
  }
}

=== FILE: sensors.dfy ===
/** `load_sensors`: for every configured sensor name, in order, select its
    readings from the `sensors -j` tree and format them into one line. */
module Sensors {
  import opened Results
  import opened Record
  import opened SensorTree
  import opened SyslogFormat

  /** One sensor: look up its selectors, select, and format `{'name': name, 'readings': values}`. */
  function SensorLine(tree: Tree, name: string, devices: map<string, seq<string>>, matches: Matcher,
                      host: Host, serialize: Serializer): (r: Result<Formatted, Fault>)
    ensures name !in devices ==> r == Err(MissingKey(name))
    ensures name in devices && Select(tree, devices[name], matches).Err? ==> r == Err(Select(tree, devices[name], matches).error)
    ensures name in devices && Select(tree, devices[name], matches) == Ok([]) ==> r == Err(EmptyReadings)
    ensures r.Ok? <==> name in devices && Select(tree, devices[name], matches).Ok? && |Select(tree, devices[name], matches).value| > 0
    ensures r.Ok? ==>
      r == FormatMessage([("name", Str(name)), ("readings", Nums(Select(tree, devices[name], matches).value))], host, serialize)
    ensures r.Ok? && name != "name" && name != "hostname" && name != "timereported" && name != "readings" ==>
      r.value.record == [("name", Str(name)), ("hostname", Str(host.hostname)), ("timereported", Str(host.isoTime)),
                         (name, Num(Mean(Select(tree, devices[name], matches).value)))]
  {
    if name !in devices then Err(MissingKey(name))
    else
      var readings :- Select(tree, devices[name], matches);
      var m := [("name", Str(name)), ("readings", Nums(readings))];
      SensorMessage(name, readings);
      var f := FormatMessage(m, host, serialize);
      assert f.Ok? && name != "name" && name != "hostname" && name != "timereported" && name != "readings" ==>
        f.value.record == [("name", Str(name)), ("hostname", Str(host.hostname)), ("timereported", Str(host.isoTime)),
                           (name, Num(Mean(readings)))] by {
        if f.Ok? && name != "name" && name != "hostname" && name != "timereported" && name != "readings" {
          SensorRecord(name, readings, host, serialize);
        }
      }
      f
  }

  /** The message a sensor builds is a dictionary with no Facility or Priority field. */
  lemma SensorMessage(name: string, readings: seq<real>)
    ensures var m := [("name", Str(name)), ("readings", Nums(readings))];
            && WellFormed(m)
            && Pri(m) == Ok(30)
            && NameOf(m) == Ok(name)
            && (MeanOf(m).Ok? <==> |readings| > 0)
            && (|readings| == 0 ==> MeanOf(m) == Err(EmptyReadings))
  {
    var m := [("name", Str(name)), ("readings", Nums(readings))];
    FindUnique(m, "Facility", 2);
    FindUnique(m, "Priority", 2);
    FindUnique(m, "name", 0);
    FindUnique(m, "readings", 1);
  }

  /** The loop over `sensor_names`: one line per sensor, appended in configured
      order; the first failing sensor ends the loop with its fault, and the
      lines of the sensors before it stay appended. */
  function LoadSensors(tree: Tree, names: seq<string>, devices: map<string, seq<string>>, matches: Matcher,
                       host: Host, serialize: Serializer): (r: Partial<Formatted, Fault>)
    ensures |r.done| <= |names|
    ensures forall i :: 0 <= i < |r.done| ==> SensorLine(tree, names[i], devices, matches, host, serialize) == Ok(r.done[i])
    ensures r.fault.None? <==> forall i :: 0 <= i < |names| ==> SensorLine(tree, names[i], devices, matches, host, serialize).Ok?
    ensures r.fault.Some? ==> SensorLine(tree, names[|r.done|], devices, matches, host, serialize) == Err(r.fault.value)
  {
    var line := name => SensorLine(tree, name, devices, matches, host, serialize);
    var r := Run(names, line);
    assert forall i :: 0 <= i < |names| ==> line(names[i]) == SensorLine(tree, names[i], devices, matches, host, serialize);
    r
  }
}

=== FILE: sink.dfy ===
/** `send_data`: hands the cycle's batch of lines to the collector. The TCP
    connection is modelled by whether it was opened and by the ordered log
    of writes made on it; the dry-run print by the list it printed. */
module Sink {
  import opened Results

  /** What one call did to the outside world. */
  datatype Effect = Effect(printed: Option<seq<string>>, connected: bool, writes: seq<string>)

  const Idle := Effect(None, false, [])

  /** Each line as written to the socket: the line and a newline. */
  function Framed(batch: seq<string>): (frames: seq<string>)
    ensures |frames| == |batch|
    ensures forall i :: 0 <= i < |batch| ==> frames[i] == batch[i] + "\n"
  {
    seq(|batch|, i requires 0 <= i < |batch| => batch[i] + "\n")
  }

  /** Drains `batch` and returns the effect together with what is left of the batch. */
  method SendData(batch: seq<string>, dryRun: bool) returns (effect: Effect, rest: seq<string>)
    ensures |batch| == 0 ==> effect == Idle && rest == batch
    ensures |batch| > 0 && dryRun ==> effect == Effect(Some(batch), false, []) && rest == []
    ensures |batch| > 0 && !dryRun ==> effect.printed == None && effect.connected
    ensures |batch| > 0 && !dryRun ==> effect.writes == Framed(batch)
    ensures rest == []
  {
    if |batch| == 0 {
      return Idle, batch;
    }
    if dryRun {
      return Effect(Some(batch), false, []), [];
    }
    var queue := batch;
    var log: seq<string> := [];
    while |queue| > 0
      invariant |log| + |queue| == |batch|
      invariant queue == batch[|log|..]
      invariant forall i :: 0 <= i < |log| ==> log[i] == batch[i] + "\n"
    {
      log := log + [queue[0] + "\n"];
      queue := queue[1..];
    }
    return Effect(None, true, log), queue;
  }

  /** The bytes the collector receives on the connection. */
  function Stream(frames: seq<string>): string {
    if |frames| == 0 then "" else frames[0] + Stream(frames[1..])
  }

  /** The collector's view: the stream cut after every newline. */
  function Lines(s: string): seq<string>
    decreases |s|
  {
    if |s| == 0 then []
    else
      var i := NewlineAt(s);
      if i == |s| then [s] else [s[..i]] + Lines(s[i + 1..])
  }

  /** Position of the first newline in `s`, or `|s|`. */
  function NewlineAt(s: string): (i: nat)
    ensures i <= |s|
    ensures i < |s| ==> s[i] == '\n'
    ensures forall j :: 0 <= j < i ==> s[j] != '\n'
  {
    if |s| == 0 then 0 else if s[0] == '\n' then 0 else 1 + NewlineAt(s[1..])
  }

  lemma NewlineAfter(line: string, more: string)
    requires forall j :: 0 <= j < |line| ==> line[j] != '\n'
    ensures NewlineAt(line + "\n" + more) == |line|
  {
    var s := line + "\n" + more;
    if |line| > 0 {
      assert s[1..] == line[1..] + "\n" + more;
      NewlineAfter(line[1..], more);
    }
  }

  /** Lines without embedded newlines survive framing: the collector reads back
      exactly the batch, in order. */
  lemma {:induction false} StreamRoundTrip(batch: seq<string>)
    requires forall i, j :: 0 <= i < |batch| && 0 <= j < |batch[i]| ==> batch[i][j] != '\n'
    ensures Lines(Stream(Framed(batch))) == batch
  {
    if |batch| > 0 {
      var frames := Framed(batch);
      assert Framed(batch[1..]) == frames[1..];
      var more := Stream(frames[1..]);
      NewlineAfter(batch[0], more);
      var s := batch[0] + "\n" + more;
      assert Stream(frames) == s;
      assert s[..|batch[0]|] == batch[0];
      assert s[|batch[0]| + 1..] == more;
      StreamRoundTrip(batch[1..]);
    }
  }
}

=== FILE: syslog_format.dfy ===
/** `format_message`: turns a reading into one syslog line carrying a CEE
    JSON payload, `<PRI>stamp host tag @cee: {json}`. */
module SyslogFormat {
  import opened Results
  import opened Record
  import opened Text
  import PyInt

  /** What the source reads from the environment while formatting: the
      `strftime('%b %d %X')` rendering of the UTC time, the local ISO-8601
      time, the node name, the script's base name and the process id. */
  datatype Host = Host(stamp: string, isoTime: string, hostname: string, program: string, pid: nat)

  /** The line and the dictionary that was serialised into it. */
  datatype Formatted = Formatted(line: string, record: Message)

  /** `json.dumps`; left abstract. */
  type Serializer = Message -> string

  const DaemonFacility := 3
  const InfoSeverity := 6
  const CeeMarker := "@cee:"

  /** An optional integer field: absent means `default`, present must be an integer. */
  function IntField(m: Message, key: string, default: int): (r: Result<int, Fault>)
    ensures Get(m, key) == None ==> r == Ok(default)
    ensures Get(m, key).Some? ==> (r.Ok? <==> Get(m, key).value.Int?)
    ensures r.Ok? && Get(m, key).Some? ==> Get(m, key) == Some(Int(r.value))
    ensures r.Err? ==> r.error == BadField(key)
  {
    match Get(m, key)
    case None => Ok(default)
    case Some(Int(i)) => Ok(i)
    case Some(_) => Err(BadField(key))
  }

  /** The PRI value `(Facility << 3) | Priority`, defaulting to daemon.info. */
  function Pri(m: Message): (r: Result<int, Fault>)
    ensures r.Ok? <==> IntField(m, "Facility", DaemonFacility).Ok? && IntField(m, "Priority", InfoSeverity).Ok?
    ensures Get(m, "Facility") == None && Get(m, "Priority") == None ==> r == Ok(30)
    ensures r.Ok? ==> var f := IntField(m, "Facility", DaemonFacility).value;
                      var p := IntField(m, "Priority", InfoSeverity).value;
                      0 <= p < 8 ==> r.value == f * 8 + p
  {
    var f :- IntField(m, "Facility", DaemonFacility);
    var p :- IntField(m, "Priority", InfoSeverity);
    assert 0 <= p < 8 ==> PyInt.Or(f * 8, p) == f * 8 + p by {
      if 0 <= p < 8 {
        PyInt.OrShiftedLowBits(f, p);
      }
    }
    Ok(PyInt.Or(f * 8, p))
  }

  function Sum(xs: seq<real>): real {
    if |xs| == 0 then 0.0 else Sum(xs[..|xs| - 1]) + xs[|xs| - 1]
  }

  /** `reduce(lambda a, b: a + b, xs) / len(xs)`, in exact arithmetic. */
  function Mean(xs: seq<real>): real
    requires |xs| > 0
  {
    Sum(xs) / (|xs| as real)
  }

  /** The key the mean is stored under: `message['name']`. */
  function NameOf(m: Message): (r: Result<string, Fault>)
    ensures r.Ok? <==> Get(m, "name").Some? && Get(m, "name").value.Str?
    ensures r.Ok? ==> Get(m, "name") == Some(Str(r.value))
  {
    match Get(m, "name")
    case None => Err(MissingKey("name"))
    case Some(Str(s)) => Ok(s)
    case Some(_) => Err(BadField("name"))
  }

  /** The mean of `message['readings']`. */
  function MeanOf(m: Message): (r: Result<real, Fault>)
    ensures r.Ok? <==> Get(m, "readings").Some? && Get(m, "readings").value.Nums? && |Get(m, "readings").value.xs| > 0
    ensures r.Ok? ==> r.value == Mean(Get(m, "readings").value.xs)
    ensures Get(m, "readings") == Some(Nums([])) ==> r == Err(EmptyReadings)
  {
    match Get(m, "readings")
    case None => Err(MissingKey("readings"))
    case Some(Nums(xs)) => if |xs| == 0 then Err(EmptyReadings) else Ok(Mean(xs))
    case Some(_) => Err(BadField("readings"))
  }

  /** `<PRI>` followed by the rendered timestamp. */
  function Header(pri: int, stamp: string): string {
    "<" + Decimal(pri) + ">" + stamp
  }

  /** `<basename>[<pid>]:`. */
  function Tag(host: Host): string {
    host.program + "[" + Decimal(host.pid) + "]:"
  }

  /** The dictionary after `update` with the host name, the report time and
      the mean, and `del message['readings']`. */
  function Reshape(m: Message, name: string, mean: real, host: Host): (rec: Message)
    requires WellFormed(m)
    ensures WellFormed(rec)
    ensures Get(rec, "readings") == None
    ensures name != "readings" ==> Get(rec, name) == Some(Num(mean))
    ensures name != "hostname" ==> Get(rec, "hostname") == Some(Str(host.hostname))
    ensures name != "timereported" ==> Get(rec, "timereported") == Some(Str(host.isoTime))
    ensures forall k :: Untouched(k, name) ==> Get(rec, k) == Get(m, k)
  {
    var withHost := Set(m, "hostname", Str(host.hostname));
    var withTime := Set(withHost, "timereported", Str(host.isoTime));
    var withMean := Set(withTime, name, Num(mean));
    assert forall k :: Untouched(k, name) ==> Get(withMean, k) == Get(m, k);
    Delete(withMean, "readings")
  }

  /** A key `format_message` neither adds, overwrites nor deletes. */
  predicate Untouched(k: string, name: string) {
    k != "hostname" && k != "timereported" && k != "readings" && k != name
  }

  /** The five tokens joined by single spaces. */
  lemma JoinFive(a: string, b: string, c: string, d: string, e: string)
    ensures Join([a, b, c, d, e], " ") == a + " " + b + " " + c + " " + d + " " + e
  {
    var tokens := [a, b, c, d, e];
    assert tokens[..4] + [tokens[4]] == tokens;
    assert tokens[..3] + [tokens[3]] == tokens[..4];
    assert tokens[..2] + [tokens[2]] == tokens[..3];
    assert tokens[..1] + [tokens[1]] == tokens[..2];
    JoinSnoc(tokens[..4], tokens[4], " ");
    JoinSnoc(tokens[..3], tokens[3], " ");
    JoinSnoc(tokens[..2], tokens[2], " ");
    JoinSnoc(tokens[..1], tokens[1], " ");
  }

  function FormatMessage(m: Message, host: Host, serialize: Serializer): (r: Result<Formatted, Fault>)
    requires WellFormed(m)
    ensures r.Ok? <==> Pri(m).Ok? && NameOf(m).Ok? && MeanOf(m).Ok?
    ensures Pri(m).Ok? && NameOf(m).Ok? && Get(m, "readings") == Some(Nums([])) ==> r == Err(EmptyReadings)
    ensures r.Ok? ==> r.value.record == Reshape(m, NameOf(m).value, MeanOf(m).value, host)
    ensures r.Ok? ==>
      var rec := r.value.record;
      r.value.line == "<" + Decimal(Pri(m).value) + ">" + host.stamp + " " + host.hostname + " "
                         + (host.program + "[" + Decimal(host.pid) + "]:") + " " + "@cee:" + " " + serialize(rec)
  {
    var pri :- Pri(m);
    var name :- NameOf(m);
    var mean :- MeanOf(m);
    var rec := Reshape(m, name, mean, host);
    var tokens := [Header(pri, host.stamp), host.hostname, Tag(host), CeeMarker, serialize(rec)];
    JoinFive(Header(pri, host.stamp), host.hostname, Tag(host), CeeMarker, serialize(rec));
    Ok(Formatted(Join(tokens, " "), rec))
  }

  /** What a successful `format_message` leaves in the dictionary it serialises:
      no `readings`, the mean under the reading's name, the host and report
      time, and every other field as it was. */
  lemma FormatRecord(m: Message, host: Host, serialize: Serializer)
    requires WellFormed(m)
    requires Pri(m).Ok? && NameOf(m).Ok? && MeanOf(m).Ok?
    ensures var rec := FormatMessage(m, host, serialize).value.record;
            var name := NameOf(m).value;
            && WellFormed(rec)
            && Get(rec, "readings") == None
            && (name != "readings" ==> Get(rec, name) == Some(Num(MeanOf(m).value)))
            && (name != "hostname" ==> Get(rec, "hostname") == Some(Str(host.hostname)))
            && (name != "timereported" ==> Get(rec, "timereported") == Some(Str(host.isoTime)))
            && (forall k :: Untouched(k, name) ==> Get(rec, k) == Get(m, k))
  {
  }

  /** Without Facility and Priority fields the line opens with `<30>` (daemon.info). */
  lemma DefaultHeader(m: Message, host: Host, serialize: Serializer)
    requires WellFormed(m)
    requires Get(m, "Facility") == None && Get(m, "Priority") == None
    requires NameOf(m).Ok? && MeanOf(m).Ok?
    ensures var f := FormatMessage(m, host, serialize).value;
            f.line == "<30>" + host.stamp + " " + host.hostname + " "
                      + (host.program + "[" + Decimal(host.pid) + "]:") + " " + "@cee:" + " " + serialize(f.record)
  {
    var f := FormatMessage(m, host, serialize).value;
    assert Pri(m) == Ok(30);
    DecimalExamples();
    assert f.line == "<" + Decimal(30) + ">" + host.stamp + " " + host.hostname + " "
                     + (host.program + "[" + Decimal(host.pid) + "]:") + " " + "@cee:" + " " + serialize(f.record);
  }

  /** Facility 1 (user) with priority 5 (notice) opens the line with `<13>`. */
  lemma UserNoticeHeader(m: Message, host: Host, serialize: Serializer)
    requires WellFormed(m)
    requires Get(m, "Facility") == Some(Int(1)) && Get(m, "Priority") == Some(Int(5))
    requires NameOf(m).Ok? && MeanOf(m).Ok?
    ensures var f := FormatMessage(m, host, serialize).value;
            f.line == "<13>" + host.stamp + " " + host.hostname + " "
                      + (host.program + "[" + Decimal(host.pid) + "]:") + " " + "@cee:" + " " + serialize(f.record)
  {
    var f := FormatMessage(m, host, serialize).value;
    assert Pri(m) == Ok(13);
    DecimalExamples();
    assert f.line == "<" + Decimal(13) + ">" + host.stamp + " " + host.hostname + " "
                     + (host.program + "[" + Decimal(host.pid) + "]:") + " " + "@cee:" + " " + serialize(f.record);
  }

  lemma {:induction false} SumBounds(xs: seq<real>, lo: real, hi: real)
    requires forall i :: 0 <= i < |xs| ==> lo <= xs[i] <= hi
    ensures (|xs| as real) * lo <= Sum(xs) <= (|xs| as real) * hi
  {
    if |xs| > 0 {
      SumBounds(xs[..|xs| - 1], lo, hi);
    }
  }

  /** The mean lies between any lower and upper bound of the samples. */
  lemma MeanBounds(xs: seq<real>, lo: real, hi: real)
    requires |xs| > 0
    requires forall i :: 0 <= i < |xs| ==> lo <= xs[i] <= hi
    ensures lo <= Mean(xs) <= hi
  {
    SumBounds(xs, lo, hi);
    var n := |xs| as real;
    var mean := Mean(xs);
    assert mean * n == Sum(xs);
    assert (mean - lo) * n == Sum(xs) - lo * n;
    assert (hi - mean) * n == hi * n - Sum(xs);
  }

  /** A single sample is its own mean; 10, 20 and 30 average to 20. */
  lemma MeanExamples(x: real)
    ensures Mean([x]) == x
    ensures Mean([10.0, 20.0, 30.0]) == 20.0
  {
    assert [x][..0] == [];
    assert Sum([x]) == x;
    var xs := [10.0, 20.0, 30.0];
    assert xs[..2] == [10.0, 20.0];
    assert xs[..2][..1] == [10.0];
    assert xs[..2][..1][..0] == [];
    assert Sum(xs) == 60.0;
  }

  /** When the three keys are new, they are appended in order after the
      surviving fields, which keep their own order. */
  lemma ReshapeAppends(m: Message, name: string, mean: real, host: Host)
    requires WellFormed(m) && Has(m, "readings")
    requires !Has(m, "hostname") && !Has(m, "timereported") && !Has(m, name)
    requires name != "hostname" && name != "timereported" && name != "readings"
    ensures Reshape(m, name, mean, host)
            == Delete(m, "readings") + [("hostname", Str(host.hostname)), ("timereported", Str(host.isoTime)), (name, Num(mean))]
  {
    var tail := [("hostname", Str(host.hostname)), ("timereported", Str(host.isoTime)), (name, Num(mean))];
    AppendThree(m, "hostname", Str(host.hostname), "timereported", Str(host.isoTime), name, Num(mean));
    DeleteBeforeTail(m, tail, "readings");
  }

  lemma AppendThree(m: Message, k1: string, v1: Value, k2: string, v2: Value, k3: string, v3: Value)
    requires !Has(m, k1) && !Has(m, k2) && !Has(m, k3)
    requires k1 != k2 && k1 != k3 && k2 != k3
    ensures Set(Set(Set(m, k1, v1), k2, v2), k3, v3) == m + [(k1, v1), (k2, v2), (k3, v3)]
  {
    var m1 := m + [(k1, v1)];
    var m2 := m1 + [(k2, v2)];
    assert !Has(m1, k2) && !Has(m1, k3) by {
      AbsentAfterAppend(m, k1, v1, k2);
      AbsentAfterAppend(m, k1, v1, k3);
    }
    assert !Has(m2, k3) by {
      AbsentAfterAppend(m1, k2, v2, k3);
    }
    assert Set(m, k1, v1) == m1 by {
      SetNew(m, k1, v1);
    }
    assert Set(m1, k2, v2) == m2 by {
      SetNew(m1, k2, v2);
    }
    assert Set(m2, k3, v3) == m + [(k1, v1), (k2, v2), (k3, v3)] by {
      SetNew(m2, k3, v3);
      assert m2 + [(k3, v3)] == m + [(k1, v1), (k2, v2), (k3, v3)];
    }
  }

  lemma DeleteBeforeTail(m: Message, tail: Message, k: string)
    requires Has(m, k)
    ensures Delete(m + tail, k) == Delete(m, k) + tail
  {
    var i := Find(m, k);
    FindUnique(m + tail, k, i);
    DeleteFound(m + tail, k);
    DeleteFound(m, k);
    CutAppend(m, tail, i);
  }

  /** The reshaping applied to a sensor reading `{'name': n, 'readings': xs}`. */
  lemma ReshapeSensor(m: Message, n: string, mean: real, host: Host)
    requires |m| == 2 && m[0] == ("name", Str(n)) && m[1].0 == "readings"
    requires n != "name" && n != "hostname" && n != "timereported" && n != "readings"
    ensures Reshape(m, n, mean, host)
            == [("name", Str(n)), ("hostname", Str(host.hostname)), ("timereported", Str(host.isoTime)), (n, Num(mean))]
  {
    assert WellFormed(m) && Has(m, "readings") && !Has(m, "hostname") && !Has(m, "timereported") && !Has(m, n) by {
      FindUnique(m, "readings", 1);
      FindUnique(m, "hostname", 2);
      FindUnique(m, "timereported", 2);
      FindUnique(m, n, 2);
    }
    assert Delete(m, "readings") == [("name", Str(n))] by {
      FindUnique(m, "readings", 1);
      DeleteFound(m, "readings");
      assert m[..1] + m[2..] == [("name", Str(n))];
    }
    ReshapeAppends(m, n, mean, host);
    PrependOne(("name", Str(n)), ("hostname", Str(host.hostname)), ("timereported", Str(host.isoTime)), (n, Num(mean)));
  }

  lemma PrependOne<T>(x: T, a: T, b: T, c: T)
    ensures [x] + [a, b, c] == [x, a, b, c]
  {
  }

  /** A sensor reading `{'name': n, 'readings': xs}` becomes exactly
      `{'name': n, 'hostname': ..., 'timereported': ..., n: mean(xs)}`, in that key order. */
  lemma SensorRecord(n: string, xs: seq<real>, host: Host, serialize: Serializer)
    requires n != "name" && n != "hostname" && n != "timereported" && n != "readings"
    requires |xs| > 0
    ensures var m := [("name", Str(n)), ("readings", Nums(xs))];
            FormatMessage(m, host, serialize).Ok? &&
            FormatMessage(m, host, serialize).value.record
              == [("name", Str(n)), ("hostname", Str(host.hostname)), ("timereported", Str(host.isoTime)), (n, Num(Mean(xs)))]
  {
    var m := [("name", Str(n)), ("readings", Nums(xs))];
    FindUnique(m, "Facility", 2);
    FindUnique(m, "Priority", 2);
    FindUnique(m, "name", 0);
    FindUnique(m, "readings", 1);
    assert Pri(m) == Ok(30);
    assert NameOf(m) == Ok(n);
    assert MeanOf(m) == Ok(Mean(xs));
    ReshapeSensor(m, n, Mean(xs), host);
  }
}

=== FILE: text.dfy ===
/** String helpers the daemon relies on: decimal rendering of integers
    (f-string interpolation), Python's `int()` on a whitespace-free token,
    and `str.join`. */
module Text {
  import opened Results

  predicate IsDigit(c: char) {
    '0' <= c <= '9'
  }

  predicate AllDigits(s: string) {
    forall i :: 0 <= i < |s| ==> IsDigit(s[i])
  }

  function DigitValue(c: char): nat
    requires IsDigit(c)
  {
    c as int - '0' as int
  }

  function DigitChar(d: nat): (c: char)
    requires d < 10
    ensures IsDigit(c) && DigitValue(c) == d
  {
    ['0', '1', '2', '3', '4', '5', '6', '7', '8', '9'][d]
  }

  /** Decimal digits of a non-negative integer, most significant first, no leading zeros. */
  function Digits(n: nat): (s: string)
    ensures |s| > 0
    ensures AllDigits(s)
    ensures |s| > 1 ==> s[0] != '0'
  {
    if n < 10 then [DigitChar(n)] else Digits(n / 10) + [DigitChar(n % 10)]
  }

  /** `str(n)` for any integer. */
  function Decimal(n: int): string {
    if n < 0 then "-" + Digits(-n) else Digits(n)
  }

  /** Value of a non-empty run of decimal digits, read left to right. */
  function DigitsValue(s: string): nat
    requires AllDigits(s)
  {
    if |s| == 0 then 0 else 10 * DigitsValue(s[..|s| - 1]) + DigitValue(s[|s| - 1])
  }

  /** A token `int()` accepts: an optional sign, then at least one ASCII digit. */
  predicate IntToken(token: string) {
    if |token| > 0 && (token[0] == '-' || token[0] == '+') then
      |token| > 1 && forall i :: 1 <= i < |token| ==> IsDigit(token[i])
    else
      |token| > 0 && forall i :: 0 <= i < |token| ==> IsDigit(token[i])
  }

  /** `int(token)` for a token that holds no whitespace: an optional sign
      followed by one or more ASCII digits; leading zeros are accepted. */
  function ParseInt(token: string): (r: Option<int>)
    ensures r.Some? <==> IntToken(token)
    ensures r.Some? && token[0] == '-' ==> r.value <= 0
    ensures r.Some? && token[0] != '-' ==> r.value >= 0
  {
    var signed := |token| > 0 && (token[0] == '-' || token[0] == '+');
    var body := if signed then token[1..] else token;
    if |body| == 0 || !AllDigits(body) then None
    else
      var v := DigitsValue(body);
      assert IsDigit(body[0]);
      Some(if signed && token[0] == '-' then -(v as int) else v)
  }

  lemma {:induction false} DigitsRoundTrip(n: nat)
    ensures DigitsValue(Digits(n)) == n
  {
    if n >= 10 {
      var s := Digits(n);
      assert s[..|s| - 1] == Digits(n / 10);
      DigitsRoundTrip(n / 10);
    }
  }

  /** Reading back what `Decimal` rendered yields the same integer. */
  lemma DecimalRoundTrip(n: int)
    ensures ParseInt(Decimal(n)) == Some(n)
  {
    if n < 0 {
      NegativeRoundTrip(n);
    } else {
      DigitsRoundTrip(n);
      ParseUnsigned(Digits(n));
    }
  }

  lemma NegativeRoundTrip(n: int)
    requires n < 0
    ensures ParseInt("-" + Digits(-n)) == Some(n)
  {
    var k: nat := -n;
    var s := Digits(k);
    DigitsRoundTrip(k);
    assert AllDigits(s) && DigitsValue(s) == k;
    ParseNegative(s, n);
  }

  lemma ParseUnsigned(s: string)
    requires |s| > 0 && AllDigits(s)
    ensures ParseInt(s) == Some(DigitsValue(s) as int)
  {
    assert IsDigit(s[0]);
  }

  lemma ParseNegative(s: string, v: int)
    requires |s| > 0 && AllDigits(s) && DigitsValue(s) as int == -v
    ensures ParseInt("-" + s) == Some(v)
  {
    assert ("-" + s)[1..] == s;
  }

  /** A leading zero does not change a run of digits' value. */
  lemma {:induction false} DigitsLeadingZero(s: string)
    requires AllDigits(s)
    ensures AllDigits("0" + s) && DigitsValue("0" + s) == DigitsValue(s)
  {
    if |s| > 0 {
      var t := "0" + s;
      assert t[..|t| - 1] == "0" + s[..|s| - 1];
      DigitsLeadingZero(s[..|s| - 1]);
    }
  }

  /** `int()` ignores leading zeros: `int("035") == int("35")`. */
  lemma LeadingZero(s: string)
    requires |s| > 0 && AllDigits(s)
    ensures ParseInt("0" + s) == ParseInt(s)
  {
    DigitsLeadingZero(s);
    ParseUnsigned(s);
    ParseUnsigned("0" + s);
  }

  /** A `+` sign in front of a digit run does not change its value. */
  lemma PlusSign(s: string)
    requires AllDigits(s)
    ensures ParseInt("+" + s) == ParseInt(s)
  {
    assert ("+" + s)[1..] == s;
    if |s| > 0 {
      ParseUnsigned(s);
    }
  }

  /** A `-` sign in front of a digit run negates its value, so `int("-0") == 0`. */
  lemma MinusSign(s: string)
    requires AllDigits(s)
    ensures ParseInt("-" + s).Some? <==> ParseInt(s).Some?
    ensures ParseInt(s).Some? ==> ParseInt("-" + s) == Some(-ParseInt(s).value)
  {
    assert ("-" + s)[1..] == s;
    if |s| > 0 {
      ParseUnsigned(s);
    }
  }

  lemma DecimalExamples()
    ensures "<" + Decimal(30) + ">" == "<30>"
    ensures "<" + Decimal(13) + ">" == "<13>"
  {
    assert Digits(3) == ['3'] && Digits(1) == ['1'];
    assert Digits(30) == Digits(3) + [DigitChar(0)];
    assert Digits(13) == Digits(1) + [DigitChar(3)];
  }

  /** `sep.join(parts)`. */
  function Join(parts: seq<string>, sep: string): (r: string)
    ensures |parts| == 0 ==> r == ""
    ensures |parts| > 0 ==> |r| == Length(parts) + (|parts| - 1) * |sep|
  {
    if |parts| == 0 then ""
    else if |parts| == 1 then parts[0]
    else parts[0] + sep + Join(parts[1..], sep)
  }

  /** Total length of all parts. */
  function Length(parts: seq<string>): nat {
    if |parts| == 0 then 0 else |parts[0]| + Length(parts[1..])
  }

  /** Joining the parts one more part at a time: the separator goes only between neighbours. */
  lemma {:induction false} JoinSnoc(parts: seq<string>, last: string, sep: string)
    requires |parts| > 0
    ensures Join(parts + [last], sep) == Join(parts, sep) + sep + last
  {
    if |parts| == 1 {
    } else {
      assert (parts + [last])[1..] == parts[1..] + [last];
      JoinSnoc(parts[1..], last, sep);
    }
  }
}
